=== FILE: README.md ===
# Pong game logic in Dafny

This project models the game logic of a terminal Pong game. The game runs a
ball thread, an AI thread, a keyboard thread and a signal thread over one
shared `game_data` record, and each thread writes a tag to a pipe to wake
the renderer. With the threads, the pipe and ncurses stripped away, each
loop iteration is a sequential integer update of that record. The model
writes each one as a pure function over an immutable `GameState`:

- `Ball.BallTick` is one ball-thread iteration. It advances the ball,
  bounces it off the walls, runs the player-paddle test (with the hit
  counter and the level) and then the AI-paddle test. It returns the new
  state, whether the level-transition pause was entered, and the outcome:
  `Continue` (BALL_TAG), `PlayerWins` or `AiWins` (both QUIT_TAG).
- `Ai.AiStep` is one AI-thread iteration. It returns AI_TAG.
- `Keyboard.KeyStep` is one pass of the key switch over the event
  `Up | Down | Play | Quit | Mouse(row) | Other`. It returns the tag, if any.
- `Resize.Resize` is the state update of the resize handler. It takes the
  new terminal size as input.

The header constants `PADDLE_WIDTH`, `FIELD_TOP`, `MAX_HITCNT` and
`MAX_LEVEL` are not fixed. They are the fields of a `Consts` value passed
to every step, and each lemma assumes only what it needs about them. C's
truncating `/` is `CInt.Div`, so `PADDLE_WIDTH / 2` is `Div(width, 2)`.

Observations the proofs pin down:

- The hit test `|pad - ball_y - -ball_diry| <= PADDLE_WIDTH/2` tests the
  paddle against the row the ball held at the START of the tick. This holds
  with or without a wall bounce (`Ball.HitWindow`). The window is inclusive
  at its edges.
- The level test `hitCnt >= MAX_HITCNT` runs before the counter is
  incremented. So from a fresh counter a level takes `MAX_HITCNT + 1` hits,
  not `MAX_HITCNT` (`Ball.HitsPerLevel`).
- The `MAX_LEVEL` test runs after the pause, inside the player-hit branch.
  So one tick can both pause and end with `PlayerWins`. For that reason the
  pause is a flag of the tick result, not a fourth outcome.
- A mouse event sets the paddle row unchecked and can leave the legal range
  (`Keyboard.MouseBreaksRange`). No tick or key step clamps it. A resize
  pulls a paddle below the range back (`Resize.ClampPaddles`), but nothing
  pulls one above the range back.
- The resize handler's ball test compares the ball column with the
  terminal width, while the new player column is one less than the width.
  A ball left on the player column or one column right of it is not moved.
  Moving right, it never meets a paddle column again and the round never
  ends (`Resize.ResizeStrandsBall`, through `Ball.PastPaddleEscapes`).

## Model

| member | source | states |
|---|---|---|
| `CInt.Div` | GameSrc/support.c:311 | C's `/` truncates toward zero: the remainder is smaller than the divisor in magnitude and never has the opposite sign of the dividend |
| `CInt.GuardedDivIsSign` | GameSrc/support.c:310-311 | the guarded `diff / (diff == 0 ? 1 : abs(diff))` equals the sign of `diff`; no division by zero when the ball is level with the paddle |
| `Ball.OutcomeTag` | GameSrc/support.c:242-291 | a tick writes BALL_TAG when play continues and QUIT_TAG when either side has won |
| `Ball.Advance` | GameSrc/support.c:185-189 | the previous ball position is recorded and the ball takes one step along its direction; nothing else changes |
| `Ball.ReflectWalls` | GameSrc/support.c:191-196 | the bounce changes only the row and the row step; it reverses the step when the row left the field, and it keeps the row one step back along the new direction |
| `Ball.Arrive` | GameSrc/support.c:185-196 | from a row inside a field of at least two rows, moving one row up or down, the bounce returns the ball to the field; the row step flips exactly when the move left the field; column and column step are untouched |
| `Ball.HitWindow` | GameSrc/support.c:199-202 | the paddle test hits exactly when the ball's row at the start of the tick is within `PADDLE_WIDTH/2` of the paddle centre, edges included |
| `Ball.Bounce` | GameSrc/support.c:206-207 | a paddle bounce reverses the column step and moves the ball two columns along the new step; rows are untouched |
| `Ball.BounceTwice` | GameSrc/support.c:206-207 | a second bounce undoes the first: column and column step are restored |
| `Ball.CountHit` | GameSrc/support.c:209-229 | a hit advances the level by one and resets the counter exactly when the counter was at or above `MAX_HITCNT`; otherwise the counter grows by one; within range each hit adds one to `Progress` |
| `Ball.CountHitsProgress` | GameSrc/support.c:209-229 | after any number of hits the counter stays in `[0, MAX_HITCNT]`, and `Progress` has grown by the number of hits |
| `Ball.HitsPerLevel` | GameSrc/support.c:209-229 | from a reset counter, `n` hits give level `L + n / (MAX_HITCNT + 1)` and counter `n % (MAX_HITCNT + 1)` |
| `Ball.PlayerPaddle` | GameSrc/support.c:198-262 | away from the player column nothing changes; a miss gives the AI the round and leaves the ball in place; a hit reverses the column step, moves the ball two columns back, counts the hit as `CountHit` says, pauses exactly when the counter was at or above `MAX_HITCNT`, and gives the player the round exactly when the level passes `MAX_LEVEL`; the row is untouched |
| `Ball.AiPaddle` | GameSrc/support.c:264-289 | away from the AI column nothing changes; a covering paddle reverses the column step and moves the ball two columns back; a miss gives the player the round and leaves the ball in place; the AI never wins here and the pause is passed through |
| `Ball.BallTick` | GameSrc/support.c:185-291 | the AI wins exactly on a player-column miss, and that tick stops before the AI test; the player wins exactly on a player hit past `MAX_LEVEL` or an AI-column miss, whether the AI column is reached directly or after a player bounce, and a direct AI-column miss leaves the ball in place; with no paddle column reached the ball only steps; each covering paddle reverses the column step and moves the ball two columns back, so two bounces in one tick return it to its arrival column; counters change only on a player hit, as `CountHit` says; `Continue` keeps `winner` and `play_flag`; paddles and bounds are untouched; the ball stays in the field |
| `Ball.RunBallKeepsField` | GameSrc/support.c:181-294 | over any number of ticks the ball row stays inside the field and both steps stay unit steps |
| `Ball.RunBallCounters` | GameSrc/support.c:181-294 | over any number of ticks the counter stays in `[0, MAX_HITCNT]`, the level never drops, and `Progress` never decreases |
| `Ball.EdgeHitScenario` | GameSrc/support.c:199-229 | a width-4 paddle two rows below the ball's starting row is hit on the edge of its window (the ball turns back and the counter grows); one row further down it misses and the AI wins |
| `Ai.AiStep` | GameSrc/support.c:310-319 | the paddle moves by the sign of the distance to the ball exactly when that lands in the legal range; it moves at most one row, never away from the ball, not at all when level with it, and keeps the legal range; the old position is recorded and AI_TAG is always written |
| `Ai.AiStepCloses` | GameSrc/support.c:310-317 | with the paddle and the ball on legal rows, one iteration closes the distance by one row unless the paddle is already level, and keeps the paddle legal |
| `Ai.AiRunConverges` | GameSrc/support.c:306-322 | with the ball on a legal row, `n` iterations reduce the distance to `max(d - n, 0)` and keep the paddle legal |
| `Keyboard.KeyStep` | GameSrc/support.c:115-161 | Up and Down move one row only inside the legal range, record the old row and always write KBD_TAG; Play sets the play flag silently; Quit sets the exit flag and writes QUIT_TAG; a mouse event sets the row unchecked and writes KBD_TAG; no key changes the ball, the AI paddle, the bounds or the counters |
| `Keyboard.KeyRunKeepsRange` | GameSrc/support.c:104-161 | from a legal paddle, any sequence of events without mouse events keeps the player paddle legal, and no such sequence changes ball, AI or counter fields |
| `Keyboard.KeyRunFrames` | GameSrc/support.c:104-161 | no sequence of events at all, mouse events included, changes the ball, the AI paddle, the bounds or the counters |
| `Keyboard.MouseBreaksRange` | GameSrc/support.c:146-157 | a mouse report of row 0 takes a legal width-4 paddle out of its range |
| `Resize.ClampPaddles` | GameSrc/support.c:64-76 | the bottom row and the player column come from the new size; a paddle below the new range goes to `max(bottom - W/2, W/2)`; any other paddle stays put |
| `Resize.Resize` | GameSrc/support.c:64-80 | as written: the ball column never changes; within the width a ball below the new bottom row goes to that row and any other keeps its row; a ball column beyond the width sets the ball ROW to half the width; the row ends on or above the bottom row exactly when the column was within the width or half the width fits |
| `Resize.ResizeIdempotent` | GameSrc/support.c:64-80 | resizing twice to the same size equals resizing once |
| `Resize.ResizeFits` | GameSrc/support.c:64-80 | when the new field can hold a paddle and its top row, paddles not above the legal range end up legal, and a ball not above the top row whose column is at most the width ends up on a field row |
| `Resize.ResizeLeavesBallOutside` | GameSrc/support.c:79-80 | with the ball at column 100 and an 80 by 24 terminal, the ball stays at column 100 and lands on row 40, outside the field |
| `Resize.ResizeIntended` | GameSrc/support.c:77-80 | corrected: a ball below the new bottom row goes to that row and any other keeps its row; a ball beyond the width goes to the middle column and any other keeps its column; so the row always ends inside the field, and the column within a non-negative width |
| `Resize.ResizeIntendedFits` | GameSrc/support.c:64-80 | corrected: when the new field can hold a paddle and its top row and the width is not negative, paddles not above the legal range end up legal, and a ball not above the top row ends up on a field row whatever its column was, with its column at most the width |
| `Ball.PastPaddleEscapes` | GameSrc/support.c:185-291 | a ball on or right of the player column, moving right, with the AI column to its left, takes a plain step right on every tick and the round never ends |
| `Resize.ResizeStrandsBall` | GameSrc/support.c:65-80 | with the ball on column `cols - 1` or `cols`, moving right, and the AI column left of the new player column, after either version of the resize handler every later tick continues and the ball column only grows |

## Findings

| source | as written | input that shows it | evidently intended | confidence | as-written member | corrected member |
|---|---|---|---|---|---|---|
| GameSrc/support.c:79-80 | when `ball_x > getmaxx`, assigns `ball_y = getmaxx / 2` | 24 rows, 80 columns, ball at column 100, row 5: ball row becomes 40 (bottom row 23) and the column stays 100 | `ball_x = getmaxx / 2`, moving the ball back into the field like the lines before it | not executed; high (the test and the assignment name different coordinates) | `Resize.Resize`, `Resize.ResizeLeavesBallOutside` | `Resize.ResizeIntended`, `Resize.ResizeIntendedFits` |

The other steps do not depend on the resize, so no other member has to
choose between the two versions.

## Left out

- Threads, the mutex and the `haltFlag` busy-waits (support.c:104-113, 183, 306-308). Each event is one atomic step. The race between a resize and a tick is a concurrency artefact.
- The level-transition pause loop (support.c:215-226) is the `paused` flag of `Ball.TickResult`. The wait for the space key, the `print_level`/`clear` calls and the process exit on the quit key during the pause are terminal I/O and process plumbing.
- Pipe writes. Each step returns its tag as a value.
- `signal_listener`, `termination_handler` and `restore_key_rate`. These are signal polling, `exit`, `sprintf` and `system`.
- ncurses and terminal I/O: `ioctl`, `wresize`, `endwin`, `getmaxy`/`getmaxx` (the new rows and columns are inputs), `getch`/`getmouse` (the event is an input, and a failed mouse read is `Other`), and the drawing and menu routines.
- The `usleep` delays (support.c:293, 321). They are wall-clock only. The ball's delay factor `MAX_LEVEL-1 - gameLevel` is not clamped, so from level `MAX_LEVEL-1` on it is zero or negative.
- C `int` is 32 bits. Fields here are unbounded integers, and overflow of positions or counters is not modelled.
- Ball.RunBall: the accumulated `paused` flag of a run is not characterised.
- Resize.ResizeIntended: keeps the `ball_x > getmaxx` test of support.c:79, so a ball on the new player column or one column right of it stays there (`Resize.ResizeStrandsBall`). Whether the test was meant to compare with the paddle column is not evident from the code, so no such variant is modelled.

=== FILE: ai.dfy ===
/** One iteration of the AI thread: move the AI paddle one row toward the
    ball when the new row is still legal. */
module Ai {
  import opened CInt
  import opened State

  /** The AI thread's step: `diff / (diff == 0 ? 1 : abs(diff))` added to the
      paddle centre, applied only inside the legal range. The result is
      characterised through `Sign`, independently of the division: the paddle
      moves by the sign of the distance to the ball exactly when that lands
      inside the range, so it moves at most one row, never away from the ball,
      not at all when level with the ball, and never leaves the range. */
  function AiStep(c: Consts, s: GameState): (r: Emit)
    ensures r.tag == Some(AiTag)
    ensures r.next == s.(aiPaddlePos := r.next.aiPaddlePos, aiPaddlePosOld := s.aiPaddlePos)
    ensures var step := Sign(s.ballY - s.aiPaddlePos);
            r.next.aiPaddlePos ==
              (if PaddleInRange(c, s.aiPaddlePos + step, s.bottomRow) then s.aiPaddlePos + step
               else s.aiPaddlePos)
    ensures Abs(r.next.aiPaddlePos - s.aiPaddlePos) <= 1
    ensures Abs(s.ballY - r.next.aiPaddlePos) <= Abs(s.ballY - s.aiPaddlePos)
    ensures s.ballY == s.aiPaddlePos ==> r.next.aiPaddlePos == s.aiPaddlePos
    ensures PaddleInRange(c, s.aiPaddlePos, s.bottomRow) ==>
              PaddleInRange(c, r.next.aiPaddlePos, s.bottomRow)
  {
    var diff := s.ballY - s.aiPaddlePos;
    var step := Div(diff, if diff == 0 then 1 else Abs(diff));
    var moved := s.aiPaddlePos + step;
    var t := s.(aiPaddlePosOld := s.aiPaddlePos);
    GuardedDivIsSign(diff);
    if HalfPaddle(c) <= moved <= s.bottomRow - HalfPaddle(c) then
      Emit(t.(aiPaddlePos := moved), Some(AiTag))
    else
      Emit(t, Some(AiTag))
  }

  /** The AI thread for `n` iterations, with nothing else moving. */
  function AiRun(c: Consts, s: GameState, n: nat): GameState
    decreases n
  {
    if n == 0 then s else AiRun(c, AiStep(c, s).next, n - 1)
  }

  /** One iteration with the ball on a legal row closes the distance by one
      row, unless the paddle is already level with the ball. */
  lemma AiStepCloses(c: Consts, s: GameState)
    requires PaddleInRange(c, s.aiPaddlePos, s.bottomRow)
    requires PaddleInRange(c, s.ballY, s.bottomRow)
    ensures var t := AiStep(c, s).next;
            && t.ballY == s.ballY && t.bottomRow == s.bottomRow
            && PaddleInRange(c, t.aiPaddlePos, s.bottomRow)
            && Abs(s.ballY - t.aiPaddlePos) ==
                 (if s.ballY == s.aiPaddlePos then 0 else Abs(s.ballY - s.aiPaddlePos) - 1)
  {
  }

  /** With the ball on a row the paddle centre may legally occupy, the AI
      paddle closes the distance by one row per iteration until it is level
      with the ball, and then stays there. */
  lemma {:induction false} AiRunConverges(c: Consts, s: GameState, n: nat)
    requires PaddleInRange(c, s.aiPaddlePos, s.bottomRow)
    requires PaddleInRange(c, s.ballY, s.bottomRow)
    ensures var d := Abs(s.ballY - s.aiPaddlePos);
            Abs(s.ballY - AiRun(c, s, n).aiPaddlePos) == if n <= d then d - n else 0
    ensures PaddleInRange(c, AiRun(c, s, n).aiPaddlePos, s.bottomRow)
    decreases n
  {
    if n > 0 {
      var t := AiStep(c, s).next;
      AiStepCloses(c, s);
      AiRunConverges(c, t, n - 1);
    }
  }
}

=== FILE: ball.dfy ===
/** One iteration of the ball thread: move the ball, bounce it off the top and
    bottom walls, test the player paddle (counting hits and levels), test the
    AI paddle, and report how the tick ended. */
module Ball {
  import opened CInt
  import opened State

  /** How a tick ends. `Continue` writes BALL_TAG and the thread goes on;
      `PlayerWins` and `AiWins` write QUIT_TAG and end the ball thread. */
  datatype Outcome = Continue | PlayerWins | AiWins

  /** The state after a tick, whether the level-transition pause was entered
      during it (the pause waits for the player's acknowledgement and then
      the tick carries on), and how the tick ended. */
  datatype TickResult = TickResult(next: GameState, paused: bool, outcome: Outcome)

  /** The tag a tick writes to the pipe. */
  function OutcomeTag(o: Outcome): (t: Tag)
    ensures t == BallTag <==> o == Continue
    ensures t == QuitTag <==> o != Continue
  {
    if o == Continue then BallTag else QuitTag
  }

  /** Record the previous position and take one step along the direction. */
  function Advance(s: GameState): (r: GameState)
    ensures r.ballXOld == s.ballX && r.ballYOld == s.ballY
    ensures r.ballX - r.ballDirX == s.ballX && r.ballY - r.ballDirY == s.ballY
    ensures r == s.(ballX := r.ballX, ballY := r.ballY, ballXOld := r.ballXOld, ballYOld := r.ballYOld)
  {
    s.(ballYOld := s.ballY, ballXOld := s.ballX,
       ballY := s.ballY + s.ballDirY, ballX := s.ballX + s.ballDirX)
  }

  /** The ball row lies above the top or below the bottom of the field. */
  predicate OffField(c: Consts, s: GameState)
  {
    s.ballY < c.fieldTop || s.ballY > s.bottomRow
  }

  /** Wall bounce: when the row left the field, reverse the row step and
      fold the overshoot back. The row one step back along the (new)
      direction is the same before and after. */
  function ReflectWalls(c: Consts, s: GameState): (r: GameState)
    ensures r == s.(ballY := r.ballY, ballDirY := r.ballDirY)
    ensures r.ballY - r.ballDirY == s.ballY - s.ballDirY
    ensures OffField(c, s) ==> r.ballDirY == -s.ballDirY
    ensures !OffField(c, s) ==> r == s
  {
    if OffField(c, s) then
      var d := -s.ballDirY;
      s.(ballDirY := d, ballY := s.ballY + 2 * d)
    else
      s
  }

  /** The ball after it moved and bounced off a wall, before any paddle test.
      From a row inside a field of at least two rows, moving one row up or
      down, the bounce brings the ball back inside the field, and the row step
      is reversed exactly when the move had left the field. */
  function Arrive(c: Consts, s: GameState): (r: GameState)
    ensures r.ballXOld == s.ballX && r.ballYOld == s.ballY
    ensures r.ballX == s.ballX + s.ballDirX && r.ballDirX == s.ballDirX
    ensures r.ballY - r.ballDirY == s.ballY
    ensures r == s.(ballX := r.ballX, ballY := r.ballY, ballXOld := r.ballXOld,
                    ballYOld := r.ballYOld, ballDirY := r.ballDirY)
    ensures c.fieldTop < s.bottomRow && BallInField(c, s) && UnitStep(s.ballDirY) ==>
              && BallInField(c, r)
              && UnitStep(r.ballDirY)
              && (r.ballDirY == -s.ballDirY <==> OffField(c, Advance(s)))
  {
    ReflectWalls(c, Advance(s))
  }

  /** The game's paddle test: the paddle centred on row `pad` covers
      the ball when `|pad - ballY - -ballDirY| <= PADDLE_WIDTH/2`. */
  predicate Covers(c: Consts, pad: int, s: GameState)
  {
    Abs(pad - s.ballY - -s.ballDirY) <= HalfPaddle(c)
  }

  /** The `- -ballDirY` correction means the paddle is tested against the row
      the ball occupied at the START of the tick, whether or not it bounced
      off a wall; the edge of the window counts as a hit. */
  lemma HitWindow(c: Consts, s: GameState, pad: int)
    ensures Covers(c, pad, Arrive(c, s)) <==> pad - HalfPaddle(c) <= s.ballY <= pad + HalfPaddle(c)
  {
  }

  /** Paddle bounce: reverse the column step and fold the ball back by two columns. */
  function Bounce(s: GameState): (r: GameState)
    ensures r.ballDirX == -s.ballDirX
    ensures r.ballX == s.ballX + 2 * r.ballDirX
    ensures r == s.(ballX := r.ballX, ballDirX := r.ballDirX)
  {
    s.(ballDirX := -s.ballDirX, ballX := s.ballX - 2 * s.ballDirX)
  }

  /** A second bounce undoes the first: the ball is back on its column with its step. */
  lemma BounceTwice(s: GameState)
    ensures Bounce(Bounce(s)) == s
  {
  }

  /** The hit counter and the level. */
  datatype Counters = Counters(hitCnt: int, gameLevel: int)

  /** The counters as one number: the hits made since level 0, each level
      taking `maxHitCnt + 1` hits. */
  function Progress(c: Consts, k: Counters): int
  {
    k.gameLevel * (c.maxHitCnt + 1) + k.hitCnt
  }

  predicate CounterInRange(c: Consts, k: Counters)
  {
    0 <= k.hitCnt <= c.maxHitCnt
  }

  /** A player-paddle hit: the level advances (and the counter restarts) only
      when the counter had already reached `maxHitCnt` before this hit;
      otherwise the counter grows by one. Within the counter's range each hit
      adds exactly one to `Progress`. */
  function CountHit(c: Consts, k: Counters): (r: Counters)
    ensures r.gameLevel == k.gameLevel + 1 <==> k.hitCnt >= c.maxHitCnt
    ensures r.gameLevel == k.gameLevel + 1 ==> r.hitCnt == 0
    ensures r.gameLevel != k.gameLevel + 1 ==> r == Counters(k.hitCnt + 1, k.gameLevel)
    ensures CounterInRange(c, k) ==> CounterInRange(c, r) && Progress(c, r) == Progress(c, k) + 1
  {
    if k.hitCnt >= c.maxHitCnt then
      var r := Counters(0, k.gameLevel + 1);
      assert Progress(c, r) == k.gameLevel * (c.maxHitCnt + 1) + c.maxHitCnt + 1;
      r
    else
      Counters(k.hitCnt + 1, k.gameLevel)
  }

  /** `n` player hits in a row. */
  function CountHits(c: Consts, k: Counters, n: nat): Counters
    decreases n
  {
    if n == 0 then k else CountHits(c, CountHit(c, k), n - 1)
  }

  /** Every hit counts once: after `n` hits `Progress` has grown by `n` and
      the counter is still in range. */
  lemma {:induction false} CountHitsProgress(c: Consts, k: Counters, n: nat)
    requires CounterInRange(c, k)
    ensures CounterInRange(c, CountHits(c, k, n))
    ensures Progress(c, CountHits(c, k, n)) == Progress(c, k) + n
    decreases n
  {
    if n > 0 {
      CountHitsProgress(c, CountHit(c, k), n - 1);
    }
  }

  /** From a fresh counter, `n` hits give level `L + n / (maxHitCnt + 1)` and
      counter `n % (maxHitCnt + 1)`: a level takes `maxHitCnt + 1` hits. */
  lemma HitsPerLevel(c: Consts, level: int, n: nat)
    requires c.maxHitCnt >= 0
    ensures CountHits(c, Counters(0, level), n).gameLevel == level + n / (c.maxHitCnt + 1)
    ensures CountHits(c, Counters(0, level), n).hitCnt == n % (c.maxHitCnt + 1)
  {
    var k := CountHits(c, Counters(0, level), n);
    CountHitsProgress(c, Counters(0, level), n);
    assert k.gameLevel * (c.maxHitCnt + 1) + k.hitCnt == level * (c.maxHitCnt + 1) + n;
    assert n == (k.gameLevel - level) * (c.maxHitCnt + 1) + k.hitCnt;
    DivModUnique(n, c.maxHitCnt + 1, k.gameLevel - level, k.hitCnt);
  }

  /** The ball reached the player's column and the paddle covers it. */
  predicate PlayerHit(c: Consts, a: GameState)
  {
    a.ballX == a.paddleCol && Covers(c, a.paddlePos, a)
  }

  /** The player-paddle test on the arrived ball. Away from the player's
      column nothing happens; a miss gives the AI the round and leaves the
      ball where it is; a hit bounces the ball back, counts the hit, pauses
      when the level was cleared, and gives the player the round when the
      level has passed the last one. */
  function PlayerPaddle(c: Consts, a: GameState): (r: TickResult)
    ensures a.ballX != a.paddleCol ==> r == TickResult(a, false, Continue)
    ensures a.ballX == a.paddleCol && !Covers(c, a.paddlePos, a) ==>
              r == TickResult(a.(playFlag := 0, winner := AI_WON), false, AiWins)
    ensures PlayerHit(c, a) ==>
              var k := CountHit(c, Counters(a.hitCnt, a.gameLevel));
              && r.next.ballDirX == -a.ballDirX
              && r.next.ballX == a.ballX + 2 * r.next.ballDirX
              && Counters(r.next.hitCnt, r.next.gameLevel) == k
              && r.paused == (a.hitCnt >= c.maxHitCnt)
              && (r.outcome == PlayerWins <==> k.gameLevel > c.maxLevel)
              && r.outcome != AiWins
              && (r.outcome == PlayerWins ==> r.next.winner == PLAYER_WON && r.next.playFlag == 0)
              && (r.outcome == Continue ==> r.next.winner == a.winner && r.next.playFlag == a.playFlag)
              && r.next == a.(ballX := r.next.ballX, ballDirX := r.next.ballDirX,
                              hitCnt := r.next.hitCnt, gameLevel := r.next.gameLevel,
                              playFlag := r.next.playFlag, winner := r.next.winner)
  {
    if a.ballX != a.paddleCol then
      TickResult(a, false, Continue)
    else if !Covers(c, a.paddlePos, a) then
      TickResult(a.(playFlag := 0, winner := AI_WON), false, AiWins)
    else
      var b := Bounce(a);
      var k := CountHit(c, Counters(b.hitCnt, b.gameLevel));
      var h := b.(hitCnt := k.hitCnt, gameLevel := k.gameLevel);
      var paused := a.hitCnt >= c.maxHitCnt;
      if h.gameLevel > c.maxLevel then
        TickResult(h.(playFlag := 0, winner := PLAYER_WON), paused, PlayerWins)
      else
        TickResult(h, paused, Continue)
  }

  /** The AI-paddle test, after the player test let the tick go on. Away
      from the AI's column nothing happens; a hit bounces the ball back; a
      miss gives the player the round and leaves the ball where it is. */
  function AiPaddle(c: Consts, p: GameState, paused: bool): (r: TickResult)
    ensures r.paused == paused && r.outcome != AiWins
    ensures p.ballX != p.aiPaddleCol ==> r == TickResult(p, paused, Continue)
    ensures p.ballX == p.aiPaddleCol && Covers(c, p.aiPaddlePos, p) ==>
              && r.outcome == Continue
              && r.next.ballDirX == -p.ballDirX
              && r.next.ballX == p.ballX + 2 * r.next.ballDirX
              && r.next == p.(ballX := r.next.ballX, ballDirX := r.next.ballDirX)
    ensures p.ballX == p.aiPaddleCol && !Covers(c, p.aiPaddlePos, p) ==>
              r == TickResult(p.(playFlag := 0, winner := PLAYER_WON), paused, PlayerWins)
  {
    if p.ballX == p.aiPaddleCol then
      if Covers(c, p.aiPaddlePos, p) then
        TickResult(Bounce(p), paused, Continue)
      else
        TickResult(p.(playFlag := 0, winner := PLAYER_WON), paused, PlayerWins)
    else
      TickResult(p, paused, Continue)
  }

  /** One iteration of the ball thread's loop. */
  function BallTick(c: Consts, s: GameState): (r: TickResult)
    // the previous position is the position at the start of the tick
    ensures r.next.ballXOld == s.ballX && r.next.ballYOld == s.ballY
    // paddles never change the row or the row step
    ensures r.next.ballY == Arrive(c, s).ballY && r.next.ballDirY == Arrive(c, s).ballDirY
    // only ball fields, counters and round flags change
    ensures r.next == s.(ballX := r.next.ballX, ballY := r.next.ballY,
                         ballXOld := r.next.ballXOld, ballYOld := r.next.ballYOld,
                         ballDirX := r.next.ballDirX, ballDirY := r.next.ballDirY,
                         hitCnt := r.next.hitCnt, gameLevel := r.next.gameLevel,
                         playFlag := r.next.playFlag, winner := r.next.winner)
    // the AI wins exactly when the ball reaches the player's column outside the paddle
    ensures r.outcome == AiWins <==>
              Arrive(c, s).ballX == s.paddleCol && Abs(s.paddlePos - s.ballY) > HalfPaddle(c)
    ensures r.outcome == AiWins ==> r.next == Arrive(c, s).(playFlag := 0, winner := AI_WON) && !r.paused
    // counters change only on a player hit, and then as CountHit says
    ensures var hit := Arrive(c, s).ballX == s.paddleCol && Abs(s.paddlePos - s.ballY) <= HalfPaddle(c);
            && (hit ==> Counters(r.next.hitCnt, r.next.gameLevel) == CountHit(c, Counters(s.hitCnt, s.gameLevel)))
            && (!hit ==> r.next.hitCnt == s.hitCnt && r.next.gameLevel == s.gameLevel)
            && (r.paused <==> hit && s.hitCnt >= c.maxHitCnt)
            && (hit && r.next.gameLevel > c.maxLevel ==> r.outcome == PlayerWins)
    // the player wins exactly past the last level, or when the AI paddle
    // misses the ball on the AI's column (reached directly, or after a
    // player bounce in the same tick)
    ensures r.outcome == PlayerWins ==> r.next.winner == PLAYER_WON && r.next.playFlag == 0
    ensures var a := Arrive(c, s);
            var hit := a.ballX == s.paddleCol && Abs(s.paddlePos - s.ballY) <= HalfPaddle(c);
            var last := CountHit(c, Counters(s.hitCnt, s.gameLevel)).gameLevel > c.maxLevel;
            var aiMiss := Abs(s.aiPaddlePos - s.ballY) > HalfPaddle(c);
            r.outcome == PlayerWins <==>
              || (hit && last)
              || (a.ballX != s.paddleCol && a.ballX == s.aiPaddleCol && aiMiss)
              || (hit && !last && a.ballX - 2 * a.ballDirX == s.aiPaddleCol && aiMiss)
    // the column: a plain step when no paddle column is reached, otherwise
    // one bounce per paddle that covers the ball
    ensures var a := Arrive(c, s);
            a.ballX != s.paddleCol && a.ballX != s.aiPaddleCol ==> r == TickResult(a, false, Continue)
    ensures var a := Arrive(c, s);
            a.ballX != s.paddleCol && a.ballX == s.aiPaddleCol && Abs(s.aiPaddlePos - s.ballY) <= HalfPaddle(c) ==>
              r == TickResult(Bounce(a), false, Continue)
    ensures var a := Arrive(c, s);
            a.ballX != s.paddleCol && a.ballX == s.aiPaddleCol && Abs(s.aiPaddlePos - s.ballY) > HalfPaddle(c) ==>
              r == TickResult(a.(playFlag := 0, winner := PLAYER_WON), false, PlayerWins)
    ensures var a := Arrive(c, s);
            var hit := a.ballX == s.paddleCol && Abs(s.paddlePos - s.ballY) <= HalfPaddle(c);
            hit && (r.outcome == PlayerWins || a.ballX - 2 * a.ballDirX != s.aiPaddleCol) ==>
              r.next.ballDirX == -s.ballDirX && r.next.ballX == a.ballX + 2 * r.next.ballDirX
    ensures var a := Arrive(c, s);
            var hit := a.ballX == s.paddleCol && Abs(s.paddlePos - s.ballY) <= HalfPaddle(c);
            hit && r.outcome == Continue && a.ballX - 2 * a.ballDirX == s.aiPaddleCol ==>
              r.next.ballDirX == s.ballDirX && r.next.ballX == a.ballX
    ensures r.outcome == Continue ==> r.next.winner == s.winner && r.next.playFlag == s.playFlag
    // the field invariant survives a tick
    ensures c.fieldTop < s.bottomRow && BallInField(c, s) && UnitStep(s.ballDirY) && UnitStep(s.ballDirX) ==>
              BallInField(c, r.next) && UnitStep(r.next.ballDirY) && UnitStep(r.next.ballDirX)
  {
    var a := Arrive(c, s);
    HitWindow(c, s, s.paddlePos);
    HitWindow(c, s, s.aiPaddlePos);
    var p := PlayerPaddle(c, a);
    if p.outcome == Continue then AiPaddle(c, p.next, p.paused) else p
  }

  /** The ball thread for at most `n` ticks, stopping at the first tick that
      ends the round; `paused` tells whether any tick entered the pause. */
  function RunBall(c: Consts, s: GameState, n: nat): TickResult
    decreases n
  {
    if n == 0 then
      TickResult(s, false, Continue)
    else
      var t := BallTick(c, s);
      if t.outcome != Continue then
        t
      else
        var u := RunBall(c, t.next, n - 1);
        TickResult(u.next, t.paused || u.paused, u.outcome)
  }

  /** However many ticks run, the ball stays inside the field and keeps unit steps. */
  lemma {:induction false} RunBallKeepsField(c: Consts, s: GameState, n: nat)
    requires c.fieldTop < s.bottomRow
    requires BallInField(c, s) && UnitStep(s.ballDirY) && UnitStep(s.ballDirX)
    ensures var r := RunBall(c, s, n).next;
            BallInField(c, r) && UnitStep(r.ballDirY) && UnitStep(r.ballDirX) && r.bottomRow == s.bottomRow
    decreases n
  {
    if n > 0 {
      var t := BallTick(c, s);
      if t.outcome == Continue {
        RunBallKeepsField(c, t.next, n - 1);
      }
    }
  }

  /** However many ticks run, the level never goes down and the counter stays
      within `[0, maxHitCnt]`. */
  lemma {:induction false} RunBallCounters(c: Consts, s: GameState, n: nat)
    requires CounterInRange(c, Counters(s.hitCnt, s.gameLevel))
    ensures var r := RunBall(c, s, n).next;
            CounterInRange(c, Counters(r.hitCnt, r.gameLevel))
            && s.gameLevel <= r.gameLevel
            && Progress(c, Counters(s.hitCnt, s.gameLevel)) <= Progress(c, Counters(r.hitCnt, r.gameLevel))
    decreases n
  {
    if n > 0 {
      var t := BallTick(c, s);
      if t.outcome == Continue {
        RunBallCounters(c, t.next, n - 1);
      }
    }
  }

  /** A ball on or beyond the player's column, moving right, with the AI
      column to its left, never reaches a paddle column again: every tick is
      a plain step to the right and the round never ends. */
  lemma {:induction false} PastPaddleEscapes(c: Consts, s: GameState, n: nat)
    requires s.paddleCol <= s.ballX && s.ballDirX == 1 && s.aiPaddleCol < s.paddleCol
    ensures var r := RunBall(c, s, n);
            && r.outcome == Continue && !r.paused
            && r.next.ballX == s.ballX + n && r.next.ballDirX == 1
            && r.next.paddleCol == s.paddleCol && r.next.aiPaddleCol == s.aiPaddleCol
    decreases n
  {
    if n > 0 {
      var t := BallTick(c, s);
      assert t == TickResult(Arrive(c, s), false, Continue);
      PastPaddleEscapes(c, t.next, n - 1);
    }
  }

  /** A paddle of width 4 whose window edge is the ball's starting row: the
      ball starts on row 10 moving down, so the test reads `|pad - 11 + 1|`.
      A paddle centred on row 12 (distance 2) still hits and sends the ball
      back; one centred on row 13 (distance 3) misses and the AI wins. */
  lemma EdgeHitScenario()
    ensures var c := Consts(4, 1, 5, 3);
            var s := GameState(78, 10, 77, 9, 1, 1, 12, 12, 79, 5, 5, 1, 23, 0, 0, 1, 0, 0);
            var r := BallTick(c, s);
            r.outcome == Continue && r.next.ballDirX == -1 && r.next.ballX == 77
            && r.next.ballY == 11 && r.next.hitCnt == 1
    ensures var c := Consts(4, 1, 5, 3);
            var s := GameState(78, 10, 77, 9, 1, 1, 13, 13, 79, 5, 5, 1, 23, 0, 0, 1, 0, 0);
            var r := BallTick(c, s);
            r.outcome == AiWins && r.next.winner == AI_WON && r.next.ballX == 79
  {
    var c := Consts(4, 1, 5, 3);
    assert HalfPaddle(c) == 2;
    var s := GameState(78, 10, 77, 9, 1, 1, 12, 12, 79, 5, 5, 1, 23, 0, 0, 1, 0, 0);
    var a := Arrive(c, s);
    assert a == s.(ballX := 79, ballY := 11, ballXOld := 78, ballYOld := 10);
    assert PlayerHit(c, a);
    var p := PlayerPaddle(c, a);
    assert p == TickResult(a.(ballX := 77, ballDirX := -1, hitCnt := 1), false, Continue);
    assert BallTick(c, s) == AiPaddle(c, p.next, false) == p;
    var s' := s.(paddlePos := 13, paddlePosOld := 13);
    var a' := Arrive(c, s');
    assert a' == s'.(ballX := 79, ballY := 11, ballXOld := 78, ballYOld := 10);
    assert !Covers(c, a'.paddlePos, a');
    assert BallTick(c, s') == TickResult(a'.(playFlag := 0, winner := AI_WON), false, AiWins);
  }
}

=== FILE: cint.dfy ===
/** The few pieces of C `int` arithmetic the game code relies on: `abs`,
    the `MAX` macro and `/`, which in C99 truncates toward zero (Dafny's own
    `/` is Euclidean, so it is not used directly on possibly negative operands). */
module CInt {

  function Abs(x: int): (r: int)
    ensures r >= 0
    ensures r == x || r == -x
  {
    if x < 0 then -x else x
  }

  function Max(a: int, b: int): (r: int)
    ensures r >= a && r >= b
    ensures r == a || r == b
  {
    if a >= b then a else b
  }

  /** The sign of `x`: -1, 0 or 1, defined independently of division. */
  function Sign(x: int): (r: int)
    ensures -1 <= r <= 1
    ensures r * x == Abs(x)
    ensures r == 0 <==> x == 0
  {
    if x > 0 then 1 else if x < 0 then -1 else 0
  }

  /** C99 `a / b`: the quotient rounded toward zero, so the remainder
      `a - q * b` is smaller than `b` in magnitude and never has the
      opposite sign of `a`. */
  function Div(a: int, b: int): (q: int)
    requires b != 0
    ensures Abs(a - q * b) < Abs(b)
    ensures a >= 0 ==> a - q * b >= 0
    ensures a <= 0 ==> a - q * b <= 0
  {
    if a >= 0 then
      (if b > 0 then a / b else -(a / -b))
    else
      (if b > 0 then -((-a) / b) else (-a) / (-b))
  }

  /** The AI controller's guarded `diff / (diff == 0 ? 1 : abs(diff))` is
      exactly the sign of `diff`: dividing by the magnitude with C's
      truncating division leaves no remainder, and zero divided by one is zero. */
  lemma GuardedDivIsSign(d: int)
    ensures Div(d, if d == 0 then 1 else Abs(d)) == Sign(d)
  {
    if d > 0 {
      assert d / d == 1;
    } else if d < 0 {
      assert (-d) / (-d) == 1;
    }
  }

  /** A multiple of a positive `d` smaller than `d` in magnitude is zero. */
  lemma SmallMultiple(x: int, d: int)
    requires d > 0 && -d < x * d < d
    ensures x == 0
  {
  }

  /** Quotient and remainder are determined by `n == q * d + m`, `0 <= m < d`. */
  lemma DivModUnique(n: int, d: int, q: int, m: int)
    requires d > 0 && 0 <= m < d && n == q * d + m
    ensures n / d == q && n % d == m
  {
    var q', m' := n / d, n % d;
    assert n == q' * d + m' && 0 <= m' < d;
    assert (q - q') * d == m' - m;
    SmallMultiple(q - q', d);
  }
}

=== FILE: keyboard.dfy ===
/** One pass of the keyboard thread's key switch. */
module Keyboard {
  import opened State

  /** The input events the switch distinguishes: the arrow keys, the play and
      quit keys, a mouse event reporting row `row`, and anything else (a key
      the switch ignores, or a mouse read that fails). */
  datatype Key = Up | Down | Play | Quit | Mouse(row: int) | Other

  /** The effect of one input event. */
  function KeyStep(c: Consts, s: GameState, k: Key): (r: Emit)
    // no key touches the ball, the AI paddle, the bounds or the counters
    ensures SameBallAiCounters(s, r.next)
    // the arrow keys move the paddle one row while it stays legal, and always report it
    ensures k == Up ==>
              && r.tag == Some(KbdTag) && r.next.paddlePosOld == s.paddlePos
              && (r.next.paddlePos == s.paddlePos - 1 <==> s.paddlePos > HalfPaddle(c))
              && (r.next.paddlePos == s.paddlePos || r.next.paddlePos == s.paddlePos - 1)
              && r.next == s.(paddlePos := r.next.paddlePos, paddlePosOld := s.paddlePos)
    ensures k == Down ==>
              && r.tag == Some(KbdTag) && r.next.paddlePosOld == s.paddlePos
              && (r.next.paddlePos == s.paddlePos + 1 <==> s.paddlePos < s.bottomRow - HalfPaddle(c))
              && (r.next.paddlePos == s.paddlePos || r.next.paddlePos == s.paddlePos + 1)
              && r.next == s.(paddlePos := r.next.paddlePos, paddlePosOld := s.paddlePos)
    ensures (k == Up || k == Down) && PaddleInRange(c, s.paddlePos, s.bottomRow) ==>
              PaddleInRange(c, r.next.paddlePos, r.next.bottomRow)
    // play raises the play flag silently; quit raises the exit flag and wakes the consumer
    ensures k == Play ==> r == Emit(s.(playFlag := 1), None)
    ensures k == Quit ==> r == Emit(s.(exitFlag := 1), Some(QuitTag))
    // a mouse event puts the paddle on the reported row, unchecked
    ensures k.Mouse? ==> r == Emit(s.(paddlePos := k.row, paddlePosOld := s.paddlePos), Some(KbdTag))
    ensures k == Other ==> r == Emit(s, None)
  {
    match k
    case Up =>
      var t := s.(paddlePosOld := s.paddlePos);
      Emit(if s.paddlePos > HalfPaddle(c) then t.(paddlePos := s.paddlePos - 1) else t, Some(KbdTag))
    case Down =>
      var t := s.(paddlePosOld := s.paddlePos);
      Emit(if s.paddlePos < s.bottomRow - HalfPaddle(c) then t.(paddlePos := s.paddlePos + 1) else t,
           Some(KbdTag))
    case Play =>
      Emit(s.(playFlag := 1), None)
    case Quit =>
      Emit(s.(exitFlag := 1), Some(QuitTag))
    case Mouse(row) =>
      Emit(s.(paddlePos := row, paddlePosOld := s.paddlePos), Some(KbdTag))
    case Other =>
      Emit(s, None)
  }

  /** The keyboard thread over a sequence of events. */
  function KeyRun(c: Consts, s: GameState, keys: seq<Key>): GameState
    decreases |keys|
  {
    if |keys| == 0 then s else KeyRun(c, KeyStep(c, s, keys[0]).next, keys[1..])
  }

  /** Without mouse events the player's paddle never leaves the legal range,
      and no sequence of events moves the ball, the AI paddle or the counters. */
  lemma {:induction false} KeyRunKeepsRange(c: Consts, s: GameState, keys: seq<Key>)
    requires PaddleInRange(c, s.paddlePos, s.bottomRow)
    requires forall i :: 0 <= i < |keys| ==> !keys[i].Mouse?
    ensures PaddleInRange(c, KeyRun(c, s, keys).paddlePos, s.bottomRow)
    ensures SameBallAiCounters(s, KeyRun(c, s, keys))
    decreases |keys|
  {
    if |keys| > 0 {
      var t := KeyStep(c, s, keys[0]).next;
      KeyRunKeepsRange(c, t, keys[1..]);
    }
  }

  /** No sequence of events, mouse events included, moves the ball, the AI
      paddle, the bounds or the counters. */
  lemma {:induction false} KeyRunFrames(c: Consts, s: GameState, keys: seq<Key>)
    ensures SameBallAiCounters(s, KeyRun(c, s, keys))
    decreases |keys|
  {
    if |keys| > 0 {
      KeyRunFrames(c, KeyStep(c, s, keys[0]).next, keys[1..]);
    }
  }

  /** A mouse event can break the range invariant: on a 24-row terminal with
      a paddle of width 4, a report of row 0 puts the centre above row 2. */
  lemma MouseBreaksRange()
    ensures var c := Consts(4, 1, 5, 3);
            var s := GameState(40, 12, 39, 11, 1, 1, 12, 12, 79, 12, 12, 1, 23, 0, 0, 1, 0, 0);
            PaddleInRange(c, s.paddlePos, s.bottomRow)
            && !PaddleInRange(c, KeyStep(c, s, Mouse(0)).next.paddlePos, s.bottomRow)
  {
  }
}

=== FILE: resize.dfy ===
/** The state update of the window-resize handler: new field bounds from the
    terminal size, then paddles and ball pulled back into the new field. */
module Resize {
  import opened CInt
  import opened State
  import opened Ball

  /** New bounds from a terminal of `rows` by `cols` cells, and each paddle
      whose centre lies below the new legal range moved to the lowest legal
      row (or to `PADDLE_WIDTH/2` when the field is too short for a paddle). */
  function ClampPaddles(c: Consts, s: GameState, rows: int, cols: int): (r: GameState)
    ensures r.bottomRow == rows - 1 && r.paddleCol == cols - 1
    ensures r == s.(bottomRow := r.bottomRow, paddleCol := r.paddleCol,
                    paddlePos := r.paddlePos, aiPaddlePos := r.aiPaddlePos)
    ensures s.paddlePos <= r.bottomRow - HalfPaddle(c) ==> r.paddlePos == s.paddlePos
    ensures s.paddlePos > r.bottomRow - HalfPaddle(c) ==>
              r.paddlePos == Max(r.bottomRow - HalfPaddle(c), HalfPaddle(c))
    ensures s.aiPaddlePos <= r.bottomRow - HalfPaddle(c) ==> r.aiPaddlePos == s.aiPaddlePos
    ensures s.aiPaddlePos > r.bottomRow - HalfPaddle(c) ==>
              r.aiPaddlePos == Max(r.bottomRow - HalfPaddle(c), HalfPaddle(c))
  {
    var b := rows - 1;
    var lim := b - HalfPaddle(c);
    var t := s.(bottomRow := b, paddleCol := cols - 1);
    var t1 := if t.paddlePos > lim then t.(paddlePos := Max(lim, HalfPaddle(c))) else t;
    if t1.aiPaddlePos > lim then t1.(aiPaddlePos := Max(lim, HalfPaddle(c))) else t1
  }

  /** The resize handler as written: a ball below the new bottom row is put on
      it; then, when the ball column lies beyond the terminal's width, the
      handler assigns half the width to the ball's ROW and leaves its column
      alone. So the ball row ends inside the field exactly when the column was
      within the width or half the width fits under the new bottom row. */
  function Resize(c: Consts, s: GameState, rows: int, cols: int): (r: GameState)
    ensures r.bottomRow == rows - 1 && r.paddleCol == cols - 1
    ensures r == ClampPaddles(c, s, rows, cols).(ballY := r.ballY)
    ensures r.ballX == s.ballX
    ensures s.ballX <= cols ==> r.ballY <= r.bottomRow
    ensures s.ballX <= cols && s.ballY <= r.bottomRow ==> r.ballY == s.ballY
    ensures s.ballX <= cols && s.ballY > r.bottomRow ==> r.ballY == rows - 1
    ensures s.ballX > cols ==> r.ballY == Div(cols, 2)
    ensures r.ballY <= r.bottomRow <==> s.ballX <= cols || Div(cols, 2) <= rows - 1
  {
    var t := ClampPaddles(c, s, rows, cols);
    var t1 := if t.ballY > t.bottomRow then t.(ballY := t.bottomRow) else t;
    if t1.ballX > cols then t1.(ballY := Div(cols, 2)) else t1
  }

  /** Resizing twice to the same terminal size is the same as resizing once. */
  lemma ResizeIdempotent(c: Consts, s: GameState, rows: int, cols: int)
    ensures Resize(c, Resize(c, s, rows, cols), rows, cols) == Resize(c, s, rows, cols)
  {
  }

  /** When the new field can hold a paddle, paddles not above the top end up
      in the legal range; a ball not above the top and not beyond the width
      ends up inside the field. */
  lemma ResizeFits(c: Consts, s: GameState, rows: int, cols: int)
    requires 2 * HalfPaddle(c) <= rows - 1
    requires HalfPaddle(c) <= s.paddlePos && HalfPaddle(c) <= s.aiPaddlePos
    requires c.fieldTop <= s.ballY && c.fieldTop <= rows - 1
    requires s.ballX <= cols
    ensures var r := Resize(c, s, rows, cols);
            PaddleInRange(c, r.paddlePos, r.bottomRow) && PaddleInRange(c, r.aiPaddlePos, r.bottomRow)
            && BallInField(c, r)
  {
  }

  /** A ball left beyond the new width stays there, and its row is pushed out
      of the field: an 80-column, 24-row terminal with the ball at column 100
      ends with the ball on row 40, below the bottom row 23. */
  lemma ResizeLeavesBallOutside()
    ensures var c := Consts(4, 1, 5, 3);
            var s := GameState(100, 5, 99, 4, 1, 1, 12, 12, 119, 12, 12, 1, 29, 0, 0, 1, 0, 0);
            var r := Resize(c, s, 24, 80);
            r.ballX == 100 && r.ballY == 40 && r.bottomRow == 23 && !BallInField(c, r)
  {
  }

  /** The resize handler with the evident intent of its last line: a ball
      below the new bottom row is put on it, and a ball beyond the width is
      moved to the middle COLUMN. Its row then always ends inside the new
      bottom row and, for a non-negative width, its column within the width. */
  function ResizeIntended(c: Consts, s: GameState, rows: int, cols: int): (r: GameState)
    ensures r == ClampPaddles(c, s, rows, cols).(ballX := r.ballX, ballY := r.ballY)
    ensures r.ballY <= r.bottomRow
    ensures s.ballY <= r.bottomRow ==> r.ballY == s.ballY
    ensures s.ballY > r.bottomRow ==> r.ballY == rows - 1
    ensures s.ballX <= cols ==> r.ballX == s.ballX
    ensures s.ballX > cols ==> r.ballX == Div(cols, 2)
    ensures cols >= 0 ==> r.ballX <= cols
  {
    var t := ClampPaddles(c, s, rows, cols);
    var t1 := if t.ballY > t.bottomRow then t.(ballY := t.bottomRow) else t;
    if t1.ballX > cols then t1.(ballX := Div(cols, 2)) else t1
  }

  /** With the intended last line every position fits the new field, whatever
      the ball's column was. */
  lemma ResizeIntendedFits(c: Consts, s: GameState, rows: int, cols: int)
    requires 2 * HalfPaddle(c) <= rows - 1
    requires HalfPaddle(c) <= s.paddlePos && HalfPaddle(c) <= s.aiPaddlePos
    requires c.fieldTop <= s.ballY && c.fieldTop <= rows - 1
    requires cols >= 0
    ensures var r := ResizeIntended(c, s, rows, cols);
            PaddleInRange(c, r.paddlePos, r.bottomRow) && PaddleInRange(c, r.aiPaddlePos, r.bottomRow)
            && BallInField(c, r) && r.ballX <= cols
  {
  }

  /** Neither version of the handler moves a ball that sits on the new
      player column or one column right of it, since the test compares the
      column with the width and not with the paddle column. Moving right, such
      a ball never meets a paddle column again and the round never ends. */
  lemma ResizeStrandsBall(c: Consts, s: GameState, rows: int, cols: int, n: nat)
    requires cols - 1 <= s.ballX <= cols && s.ballDirX == 1 && s.aiPaddleCol < cols - 1
    ensures var r := RunBall(c, ResizeIntended(c, s, rows, cols), n);
            r.outcome == Continue && r.next.ballX == s.ballX + n
    ensures var r := RunBall(c, Resize(c, s, rows, cols), n);
            r.outcome == Continue && r.next.ballX == s.ballX + n
  {
    PastPaddleEscapes(c, ResizeIntended(c, s, rows, cols), n);
    PastPaddleEscapes(c, Resize(c, s, rows, cols), n);
  }
}

=== FILE: state.dfy ===
/** The shared `game_data` record of the Pong game, reduced to the fields the
    ball, AI, keyboard and resize steps read or write, plus the tags those
    steps write to the render pipe. */
module State {
  import opened CInt

  /** The build-time constants of the game's header: the paddle length, the
      topmost row of the field, the hit count that clears a level and the
      last level. Their values are not fixed here; each property assumes only
      what it needs of them. */
  datatype Consts = Consts(paddleWidth: int, fieldTop: int, maxHitCnt: int, maxLevel: int)

  /** `PADDLE_WIDTH / 2`, with C's truncating division. */
  function HalfPaddle(c: Consts): int
  {
    Div(c.paddleWidth, 2)
  }

  datatype Option<T> = None | Some(value: T)

  /** The messages written to the render pipe. */
  datatype Tag = BallTag | AiTag | KbdTag | QuitTag

  /** The `game_data` fields the modelled steps touch. Rows grow downwards;
      `ballDirX`/`ballDirY` are the column and row steps of the ball. */
  datatype GameState = GameState(
    ballX: int, ballY: int,
    ballXOld: int, ballYOld: int,
    ballDirX: int, ballDirY: int,
    paddlePos: int, paddlePosOld: int, paddleCol: int,
    aiPaddlePos: int, aiPaddlePosOld: int, aiPaddleCol: int,
    bottomRow: int,
    hitCnt: int, gameLevel: int,
    playFlag: int, exitFlag: int, winner: int)

  /** Values of `winner`: 0 when the AI loses, 1 when the player loses. */
  const PLAYER_WON: int := 0
  const AI_WON: int := 1

  /** A step's new state and the tag it writes to the pipe, if any. */
  datatype Emit = Emit(next: GameState, tag: Option<Tag>)

  /** The legal rows for a paddle centre: `[PADDLE_WIDTH/2, bottom - PADDLE_WIDTH/2]`. */
  predicate PaddleInRange(c: Consts, pos: int, bottomRow: int)
  {
    HalfPaddle(c) <= pos <= bottomRow - HalfPaddle(c)
  }

  /** The ball row lies inside the field. */
  predicate BallInField(c: Consts, s: GameState)
  {
    c.fieldTop <= s.ballY <= s.bottomRow
  }

  /** A ball direction component is a single step, up or down (left or right). */
  predicate UnitStep(d: int)
  {
    d == -1 || d == 1
  }

  /** The ball, the AI paddle, the field bounds and the counters agree in `s` and `t`. */
  predicate SameBallAiCounters(s: GameState, t: GameState)
  {
    && t.ballX == s.ballX && t.ballY == s.ballY
    && t.ballXOld == s.ballXOld && t.ballYOld == s.ballYOld
    && t.ballDirX == s.ballDirX && t.ballDirY == s.ballDirY
    && t.aiPaddlePos == s.aiPaddlePos && t.aiPaddlePosOld == s.aiPaddlePosOld
    && t.aiPaddleCol == s.aiPaddleCol && t.paddleCol == s.paddleCol
    && t.bottomRow == s.bottomRow
    && t.hitCnt == s.hitCnt && t.gameLevel == s.gameLevel
    && t.winner == s.winner
  }
}
